=== FILE: README.md ===
# Vitess Java client: value encoding and RPC error classification

A Dafny model of the two pure parts of the Vitess Java client's `Proto` class
(`io.vitess.client.Proto`).

- **Error classification.** `checkError` turns a VTGate `RPCError` into the
  `SQLException` subclass for its status code. `getErrno` and `getSQLState`
  read the MySQL errno and the SQLSTATE out of the free-text message. They
  look for the first `"(errno "` or `"(sqlstate "` tag and take the text up to
  the next `')'`.
- **Bind-variable encoding.** The `TypedValue` constructor maps a host value
  to a `query.proto` type tag and a byte payload. `buildBindVariable` adds
  three things: it passes `BindVariable`s through, it refuses empty lists, and
  it turns a non-empty list into a `TUPLE`. `bindQuery` builds a `BoundQuery`
  from SQL text and a map of named values.

Nullable message and map arguments, thrown exceptions and `indexOf`'s `-1`
are modelled as values (`Option`, `Result`, `Outcome`), not as
preconditions; the two nulls that only cause a `NullPointerException` are
listed under "Left out". Java's fixed-width
integers are bounded newtypes. `BigDecimal` is an unscaled integer with a
scale. The JDK methods the core relies on are modelled from their documented
behaviour:

- `String.indexOf` (`Text`);
- `Integer.parseInt` and the integer `toString`s (`IntegerText`);
- `ByteString.copyFromUtf8` (`Utf8`);
- `BigDecimal.setScale(…, ROUND_HALF_UP)` and `toPlainString` (`BigDecimals`).

Files, one module each: `results.dfy`, `primitives.dfy`, `text.dfy`,
`digits.dfy`, `integers.dfy`, `utf8.dfy`, `decimals.dfy`, `errors.dfy`
(`ErrorClassifier`) and `encoder.dfy` (`ValueEncoder`).

Two consequences of the code's structure that are easy to miss:

- A `BindVariable` passes through only at the top level. `buildBindVariable`
  sends list elements straight to `TypedValue`, so a `BindVariable` or a
  nested list inside a list is refused. See `NestedElementRejected` and
  `BindVariableOnlyAtTopLevel`.
- `Float64` payloads are Java's `toString` of the float or double, so they
  are not read back as numbers.

## Model

| member | source | states |
|---|---|---|
| Text.IndexOf | java/client/src/main/java/io/vitess/client/Proto.java:108 | The result is present exactly when the pattern occurs, and it is the first position where it occurs |
| Text.IndexOfFrom | java/client/src/main/java/io/vitess/client/Proto.java:137 | The result is the first occurrence at or after the start index; absent means no occurrence there |
| Text.IndexOfChar | java/client/src/main/java/io/vitess/client/Proto.java:116 | The result is the first index at or after `from` holding the character; absent exactly when no later index holds it |
| Text.AbsentWithoutFirstChar | java/client/src/main/java/io/vitess/client/Proto.java:108-111 | A tag whose opening character the message lacks is never found |
| IntegerText.IntText | java/client/src/main/java/io/vitess/client/Proto.java:226-235 | The integer kinds' `toString`: a '-' exactly for negative values, followed by decimal digits with no leading zero; 0 is exactly "0" |
| IntegerText.ParseInteger | java/client/src/main/java/io/vitess/client/Proto.java:120-124 | The signed decimal reader behind `parseInt`: accepted text is non-empty, a negative result needs a leading '-', and text with a leading '-' never reads as a positive number |
| IntegerText.ParseInt | java/client/src/main/java/io/vitess/client/Proto.java:120-124 | `Integer.parseInt` succeeds exactly when the text is a signed decimal whose value lies in [-2^31, 2^31-1], and returns that value |
| IntegerText.ParseIntegerAccepts | java/client/src/main/java/io/vitess/client/Proto.java:121 | The accepted syntax is an optional `+` or `-` followed by at least one decimal digit; the empty string and a lone sign are refused |
| IntegerText.IntTextRoundTrip | java/client/src/main/java/io/vitess/client/Proto.java:224-235 | The decimal text of any integer parses back to that integer |
| IntegerText.ParseIntOfIntText | java/client/src/main/java/io/vitess/client/Proto.java:121 | `parseInt` of the text of any 32-bit integer gives that integer back |
| IntegerText.ParseIntegerAscii | java/client/src/main/java/io/vitess/client/Proto.java:228 | Any text the integer parser accepts is pure ASCII |
| Utf8.Encode | java/client/src/main/java/io/vitess/client/Proto.java:219 | `copyFromUtf8` takes one to four octets per character, and exactly one per character precisely when the text is ASCII |
| Utf8.EncodeChar | java/client/src/main/java/io/vitess/client/Proto.java:219 | One to four octets per character; exactly one octet, equal to the code point, below 0x80; lead octet at least 0xC0 and continuation octets in [0x80, 0xC0) otherwise |
| Utf8.EncodeAscii | java/client/src/main/java/io/vitess/client/Proto.java:228 | For ASCII text the UTF-8 payload is one octet per character, equal to its code |
| Utf8.AsciiRoundTrip | java/client/src/main/java/io/vitess/client/Proto.java:228-235 | ASCII text is recovered exactly from its UTF-8 payload |
| BigDecimals.RoundHalfUp | java/client/src/main/java/io/vitess/client/Proto.java:249 | The result is within half a divisor of the exact quotient; on a tie it is the neighbour farther from zero; it never has the opposite sign of the dividend |
| BigDecimals.RoundHalfUpUnique | java/client/src/main/java/io/vitess/client/Proto.java:249 | Those three properties determine the rounded value uniquely, so HALF_UP is fully specified by them |
| BigDecimals.SetScaleHalfUp | java/client/src/main/java/io/vitess/client/Proto.java:249 | The result has the requested scale; raising the scale keeps the same number; lowering it stays within half a unit of the new last place, rounds a tie away from zero, and never changes the sign; with `RoundHalfUpUnique` this fixes the value to HALF_UP rounding |
| BigDecimals.CapScale | java/client/src/main/java/io/vitess/client/Proto.java:247-250 | The scale afterwards is at most 30; a scale of at most 30 is left untouched; a larger one becomes exactly 30, within half a unit of the 30th place, with ties rounded away from zero and the sign kept, which is HALF_UP |
| BigDecimals.CapScaleTie | java/client/src/main/java/io/vitess/client/Proto.java:247-250 | 5E-31 is sent as 1E-30 and -5E-31 as -1E-30: a tie beyond the 30th place rounds away from zero |
| BigDecimals.CapScaleIdempotent | java/client/src/main/java/io/vitess/client/Proto.java:247-250 | Capping the scale twice is the same as capping it once |
| BigDecimals.PlainString | java/client/src/main/java/io/vitess/client/Proto.java:252 | `toPlainString` text starts with '-' exactly for negative numbers, then a digit; the integer part has no leading zero, and is a lone "0" when it is zero. With that canonical form, `PlainStringRoundTrip` and `PlainStringFraction` give the rest of its meaning |
| BigDecimals.ParsePlain | java/client/src/main/java/io/vitess/client/Proto.java:252 | The reference reader for plain decimal text: the scale it returns is the number of characters after the point |
| BigDecimals.PlainStringRoundTrip | java/client/src/main/java/io/vitess/client/Proto.java:252 | `toPlainString` reads back exactly: the same unscaled value and scale for a scale of at least 0, and the same number at scale 0 otherwise |
| BigDecimals.PlainStringFraction | java/client/src/main/java/io/vitess/client/Proto.java:252 | The plain text has exactly `scale` digits after the point, and none when the scale is 0 or negative |
| BigDecimals.ParsePlainAscii | java/client/src/main/java/io/vitess/client/Proto.java:252 | Any text the plain-decimal reader accepts is pure ASCII |
| ErrorClassifier.TagText | java/client/src/main/java/io/vitess/client/Proto.java:108-119 | An extracted tag never contains `')'` and is strictly shorter than the message minus the marker |
| ErrorClassifier.TagTextFound | java/client/src/main/java/io/vitess/client/Proto.java:108-121 | If the marker first occurs at p and the first `')'` after it is at q, the tag is exactly the text between them |
| ErrorClassifier.TagTextMissing | java/client/src/main/java/io/vitess/client/Proto.java:137-140 | A message without the marker has no tag |
| ErrorClassifier.TagTextUnclosed | java/client/src/main/java/io/vitess/client/Proto.java:141-148 | If no `')'` follows the first marker, there is no tag; a marker that ends the message is a case of this |
| ErrorClassifier.TagTextIsSpan | java/client/src/main/java/io/vitess/client/Proto.java:141-149 | Every extracted tag is the contiguous slice between the first marker and the first `')'` after it |
| ErrorClassifier.TagAfterPrefix | java/client/src/main/java/io/vitess/client/Proto.java:108-121 | A message made of a prefix in which the marker cannot start, the marker, a tag without `')'`, a `')'` and any rest yields exactly that tag |
| ErrorClassifier.GetErrno | java/client/src/main/java/io/vitess/client/Proto.java:104-125 | No message gives 1; any other non-zero result is `parseInt` of the errno tag |
| ErrorClassifier.ErrnoCases | java/client/src/main/java/io/vitess/client/Proto.java:108-124 | The errno is 0 with no tag, with a tag at the end, or with an unclosed tag; otherwise it is `parseInt` of the exact tag text, or 0 when that fails |
| ErrorClassifier.GetSqlState | java/client/src/main/java/io/vitess/client/Proto.java:133-150 | The function is total; no message gives ""; the result never contains `')'`; any non-empty result is the sqlstate tag |
| ErrorClassifier.SqlStateCases | java/client/src/main/java/io/vitess/client/Proto.java:137-149 | The SQLSTATE is "" with no tag, with a tag at the end, or with an unclosed tag; otherwise it is the exact text between the first marker and the next `')'` |
| ErrorClassifier.DuplicateEntryErrno | java/client/src/main/java/io/vitess/client/Proto.java:104-125 | `"Duplicate entry (errno 1062) (sqlstate 23000)"` gives errno 1062 |
| ErrorClassifier.DuplicateEntrySqlState | java/client/src/main/java/io/vitess/client/Proto.java:133-150 | The same message gives SQLSTATE `"23000"` |
| ErrorClassifier.DefaultExamples | java/client/src/main/java/io/vitess/client/Proto.java:108-124 | A message without tags gives errno 0 and SQLSTATE ""; `"(errno )"` and an unclosed `"(errno 12"` give 0 |
| ErrorClassifier.CheckError | java/client/src/main/java/io/vitess/client/Proto.java:71-95 | Returns normally exactly for no error or code OK. Otherwise it throws, carrying the message's errno and SQLSTATE. Each of the six named codes gives its own category with the error's text. Any other code gives NonTransient with the text prefixed by "Vitess RPC error: " |
| ErrorClassifier.CodeCategory | java/client/src/main/java/io/vitess/client/Proto.java:76-93 | OK raises nothing and every other code raises. A code gets a specific category only when that category stands for it; the default NonTransient branch is taken exactly for the codes no specific category claims |
| ErrorClassifier.CheckErrorByCategory | java/client/src/main/java/io/vitess/client/Proto.java:76-90 | Read backwards, the table holds too: an error whose code is the one a specific category stands for is thrown as that category |
| ErrorClassifier.UnavailableExample | java/client/src/main/java/io/vitess/client/Proto.java:85-86 | UNAVAILABLE with message `"(errno 0)"` is thrown as a transient exception with errno 0 and SQLSTATE "" |
| ValueEncoder.ToTypedValue | java/client/src/main/java/io/vitess/client/Proto.java:212-256 | Fails exactly for a BindVariable, a list or an unsupported kind, and names the offending value. Row by row: null is NullType with an empty payload; a String is VarChar with its UTF-8 bytes; bytes are VarBinary unchanged; Integer, Long, Short and Byte are Int64; BigInteger is VarChar; UnsignedLong is Uint64; every integer kind carries the UTF-8 of its decimal text; Float and Double are Float64 with the UTF-8 of their text; Boolean is Int64 with the UTF-8 of "1" or "0"; BigDecimal is Decimal with the UTF-8 of the capped decimal's plain text |
| ValueEncoder.IntegralRoundTrip | java/client/src/main/java/io/vitess/client/Proto.java:224-235 | Integer, Long, Short and Byte are tagged Int64, BigInteger VarChar and UnsignedLong Uint64, and each payload reads back as the same number |
| ValueEncoder.BooleanRoundTrip | java/client/src/main/java/io/vitess/client/Proto.java:240-243 | A boolean is tagged Int64 and its payload reads back as 1 or 0 |
| ValueEncoder.DecimalRoundTrip | java/client/src/main/java/io/vitess/client/Proto.java:244-252 | A BigDecimal is tagged Decimal and its payload reads back as the capped decimal, which is the input itself for scales 0 to 30. The text never has more than 30 fraction digits |
| ValueEncoder.TagDeterminesPayload | java/client/src/main/java/io/vitess/client/Proto.java:212-252 | The tag says how to read the payload: NullType has none; Int64 is an integer in the signed 64-bit range; Uint64 is one in the unsigned range; Decimal is a plain decimal of scale at most 30 |
| ValueEncoder.EncodeElements | java/client/src/main/java/io/vitess/client/Proto.java:169-172 | Succeeds exactly when every element is encodable, giving one value per element in order. Otherwise it fails with the error of the first element refused |
| ValueEncoder.BuildBindVariable | java/client/src/main/java/io/vitess/client/Proto.java:152-180 | A BindVariable passes through and an empty list is refused. A non-empty list becomes a Tuple with no scalar bytes, holding its elements' typed values in order, and fails if any element is refused. Anything else is the single typed value. A refused scalar fails with the dispatch table's error for it, and a refused non-empty list with the error of its first refused element |
| ValueEncoder.NestedElementRejected | java/client/src/main/java/io/vitess/client/Proto.java:159-172 | A list holding a BindVariable or another list is refused as an unsupported type |
| ValueEncoder.BindVariableOnlyAtTopLevel | java/client/src/main/java/io/vitess/client/Proto.java:153-172 | A BindVariable passes through on its own but is refused inside a one-element list |
| ValueEncoder.TupleElementsMatchScalars | java/client/src/main/java/io/vitess/client/Proto.java:169-176 | Each element of an accepted tuple has the type and bytes the element would get as a scalar bind variable |
| ValueEncoder.BindQuery | java/client/src/main/java/io/vitess/client/Proto.java:185-193 | Keeps the SQL. Null vars gives no bind variables. Otherwise it succeeds exactly when every value encodes, with exactly the keys of vars, each bound to its value's bind variable. On failure it reports the first refused entry in iteration order |

## Left out

- `fromQueryResponsesToCursorList` (lines 195-202) only wraps each result in a
  cursor object that is not part of this model. There is no logic in it.
- `BYTE_ARRAY_TO_BYTE_STRING` (lines 55-61) is a thin wrapper over
  protobuf's byte copy.
- The `Float`/`Double` payload is Java's floating-point `toString`. It is
  carried as a string inside `FloatingPoint` rather than computed, and only
  its `Float64` tag is modelled.
- `RPCError.toString()` is the parameter `describe`. Only the
  `"Vitess RPC error: "` prefix is modelled.
- Protobuf builder mechanics and the `SQLException` class hierarchy are
  replaced by datatypes and the `Category` enum.
- `vtrpc.proto` is not part of this model. The codes the switch names are
  constructors of `RpcCode`. `OtherCode` stands for every other code.
- `RPCError.getMessage()` is never null in protobuf, so `CheckError` always
  passes a present message. `GetErrno(None)` models direct calls only.
- A null `query` or a null key in `vars` makes the protobuf builder throw
  `NullPointerException` in `bindQuery` (lines 186 and 189). The model's SQL
  text and keys are plain strings, so those two exceptions are not modelled.
- Map iteration order in `bindQuery` is the parameter `order`. It only
  decides which refused value's exception is reported.
- Java strings are UTF-16 and may hold unpaired surrogates, which
  `copyFromUtf8` replaces. Dafny characters are Unicode scalar values, so
  that case cannot arise in the model.
- `BigDecimal` scales are 32-bit in Java; the model's scale is unbounded. The
  JDK's failures for extreme scales are not modelled.
- IntegerText.ParseInt: accepts only ASCII digits. Java's `Integer.parseInt`
  reads digits with `Character.digit`, which also accepts other Unicode
  decimal digits (Arabic-Indic, fullwidth and others). Modelling the Unicode
  digit tables is out of scope.

=== FILE: decimals.dfy ===
/** `java.math.BigDecimal` as far as the encoder uses it: `setScale` with
    `ROUND_HALF_UP`, and `toPlainString`. */
module BigDecimals {
  import opened Results
  import opened Text
  import opened Digits
  import opened IntegerText

  /** The largest fractional scale MySQL's DECIMAL accepts (`MAX_DECIMAL_UNIT`). */
  const MaxDecimalUnit: int := 30

  /** The number `unscaled × 10^(-scale)`; `scale` may be negative. */
  datatype BigDecimal = BigDecimal(unscaled: int, scale: int)

  function Abs(x: int): nat {
    if x < 0 then -x else x
  }

  /** Two decimals denote the same number (possibly at different scales). */
  predicate SameValue(a: BigDecimal, b: BigDecimal) {
    if a.scale <= b.scale then a.unscaled * Pow10(b.scale - a.scale) == b.unscaled
    else a.unscaled == b.unscaled * Pow10(a.scale - b.scale)
  }

  /** `u / p` rounded to the nearest integer, ties away from zero
      (`RoundingMode.HALF_UP`). */
  function RoundHalfUp(u: int, p: nat): (r: int)
    requires p >= 1
    ensures 2 * Abs(u - r * p) <= p
    ensures 2 * Abs(u - r * p) == p ==> Abs(r) * p > Abs(u)
    ensures (u >= 0 ==> r >= 0) && (u <= 0 ==> r <= 0)
  {
    var m := RoundMagnitude(Abs(u), p);
    var r := if u < 0 then -(m as int) else m;
    SignedDistance(u, p, m, r);
    r
  }

  /** HALF_UP on a magnitude: the quotient, plus one when the remainder is
      at least half the divisor. */
  function RoundMagnitude(a: nat, p: nat): (m: nat)
    requires p >= 1
    ensures 2 * Abs(a - m * p) <= p
    ensures 2 * Abs(a - m * p) == p ==> m * p > a
  {
    var q := a / p;
    var rem := a % p;
    DivisionIdentity(a, p);
    HalfUpMagnitude(a, p, q, rem, if 2 * rem >= p then q + 1 else q);
    if 2 * rem >= p then q + 1 else q
  }

  lemma DivisionIdentity(a: nat, p: nat)
    requires p >= 1
    ensures a == (a / p) * p + a % p && a % p < p
  {
  }

  /** Putting the sign back does not change the distance to `u`. */
  lemma SignedDistance(u: int, p: nat, m: nat, r: int)
    requires r == if u < 0 then -(m as int) else m
    ensures Abs(u - r * p) == Abs(Abs(u) - m * p)
    ensures Abs(r) == m
  {
    if u < 0 {
      NegateProduct(m, p);
    }
  }

  lemma NegateProduct(m: int, p: int)
    ensures (-m) * p == -(m * p)
  {
  }

  /** Rounding the magnitude `a = q * p + rem` half-up. */
  lemma HalfUpMagnitude(a: nat, p: nat, q: nat, rem: nat, m: nat)
    requires p >= 1 && a == q * p + rem && rem < p
    requires m == if 2 * rem >= p then q + 1 else q
    ensures 2 * Abs(a - m * p) <= p
    ensures 2 * Abs(a - m * p) == p ==> m * p > a
  {
    if 2 * rem >= p {
      assert m * p == q * p + p;
    }
  }

  lemma AtLeastOneTimes(k: int, p: nat)
    requires k >= 1
    ensures k * p >= p
  {
    assert k * p == (k - 1) * p + p;
  }

  /** Distinct multiples of `p` are at least `p` apart. */
  lemma MultiplesApart(r: int, r': int, p: nat)
    requires p >= 1 && r != r'
    ensures Abs(r * p - r' * p) >= p
  {
    var k := r - r';
    assert r * p - r' * p == k * p;
    if k > 0 {
      AtLeastOneTimes(k, p);
    } else {
      AtLeastOneTimes(-k, p);
      NegateProduct(k, p);
    }
  }

  /** The three properties of `RoundHalfUp` single out its result: HALF_UP
      rounding is a function of the exact quotient. */
  lemma {:induction false} RoundHalfUpUnique(u: int, p: nat, r': int)
    requires p >= 1
    requires 2 * Abs(u - r' * p) <= p
    requires 2 * Abs(u - r' * p) == p ==> Abs(r') * p > Abs(u)
    requires (u > 0 ==> r' >= 0) && (u < 0 ==> r' <= 0)
    ensures r' == RoundHalfUp(u, p)
  {
    var r := RoundHalfUp(u, p);
    if r' != r {
      // Two distinct multiples of p within p / 2 of u: both at exactly p / 2,
      // on opposite sides of u, and the one nearer zero breaks the tie rule.
      MultiplesApart(r, r', p);
      ProductSign(r, p);
      ProductSign(r', p);
      NearestMultiple(u, p, r * p, r' * p);
      assert false;
    }
  }

  /** Two multiples of `p` (at least `p` apart unless equal) that both meet
      the HALF_UP conditions for `u` coincide. */
  lemma NearestMultiple(u: int, p: nat, a: int, a': int)
    requires p >= 1 && (a == a' || Abs(a - a') >= p)
    requires 2 * Abs(u - a) <= p && 2 * Abs(u - a') <= p
    requires 2 * Abs(u - a) == p ==> Abs(a) > Abs(u)
    requires 2 * Abs(u - a') == p ==> Abs(a') > Abs(u)
    requires (u >= 0 ==> a >= 0) && (u <= 0 ==> a <= 0)
    requires (u > 0 ==> a' >= 0) && (u < 0 ==> a' <= 0)
    ensures a == a'
  {
  }

  /** Multiplying by a positive `p` keeps the sign and scales the magnitude. */
  lemma ProductSign(r: int, p: nat)
    requires p >= 1
    ensures Abs(r) * p == Abs(r * p)
    ensures (r >= 0 ==> r * p >= 0) && (r <= 0 ==> r * p <= 0)
  {
    if r < 0 {
      NegateProduct(r, p);
      assert Abs(r) * p == (-r) * p;
      NegateProduct(-r, p);
    }
  }

  /** `d.setScale(newScale, ROUND_HALF_UP)`. */
  function SetScaleHalfUp(d: BigDecimal, newScale: int): (r: BigDecimal)
    ensures r.scale == newScale
    ensures newScale >= d.scale ==> SameValue(d, r)
    ensures newScale < d.scale ==>
      2 * Abs(d.unscaled - r.unscaled * Pow10(d.scale - newScale)) <= Pow10(d.scale - newScale)
    ensures newScale < d.scale ==>
      2 * Abs(d.unscaled - r.unscaled * Pow10(d.scale - newScale)) == Pow10(d.scale - newScale) ==>
        Abs(r.unscaled) * Pow10(d.scale - newScale) > Abs(d.unscaled)
    ensures (d.unscaled >= 0 ==> r.unscaled >= 0) && (d.unscaled <= 0 ==> r.unscaled <= 0)
  {
    if newScale >= d.scale then BigDecimal(d.unscaled * Pow10(newScale - d.scale), newScale)
    else BigDecimal(RoundHalfUp(d.unscaled, Pow10(d.scale - newScale)), newScale)
  }

  /** The encoder's cap: a scale above `MaxDecimalUnit` is rounded half-up to
      exactly `MaxDecimalUnit`; any other decimal is left as it is. */
  function CapScale(d: BigDecimal): (r: BigDecimal)
    ensures r.scale <= MaxDecimalUnit
    ensures d.scale <= MaxDecimalUnit ==> r == d
    ensures d.scale > MaxDecimalUnit ==> r.scale == MaxDecimalUnit
    ensures d.scale > MaxDecimalUnit ==>
      2 * Abs(d.unscaled - r.unscaled * Pow10(d.scale - MaxDecimalUnit)) <= Pow10(d.scale - MaxDecimalUnit)
    ensures d.scale > MaxDecimalUnit ==>
      2 * Abs(d.unscaled - r.unscaled * Pow10(d.scale - MaxDecimalUnit)) == Pow10(d.scale - MaxDecimalUnit) ==>
        Abs(r.unscaled) * Pow10(d.scale - MaxDecimalUnit) > Abs(d.unscaled)
    ensures (d.unscaled >= 0 ==> r.unscaled >= 0) && (d.unscaled <= 0 ==> r.unscaled <= 0)
  {
    if d.scale > MaxDecimalUnit then SetScaleHalfUp(d, MaxDecimalUnit) else d
  }

  /** A tie at the 31st fraction digit rounds away from zero: 5E-31 becomes
      1E-30 and -5E-31 becomes -1E-30. */
  lemma CapScaleTie()
    ensures CapScale(BigDecimal(5, 31)) == BigDecimal(1, 30)
    ensures CapScale(BigDecimal(-5, 31)) == BigDecimal(-1, 30)
  {
    assert Pow10(1) == 10;
    var r := CapScale(BigDecimal(5, 31)).unscaled;
    var r' := CapScale(BigDecimal(-5, 31)).unscaled;
    assert 0 <= r <= 1;
    assert -1 <= r' <= 0;
  }

  /** Capping twice is capping once. */
  lemma CapScaleIdempotent(d: BigDecimal)
    ensures CapScale(CapScale(d)) == CapScale(d)
  {
  }

  /** `toPlainString`: the number without an exponent, with exactly `scale`
      digits after the point when `scale > 0`; a negative scale appends zeros. */
  function PlainString(d: BigDecimal): (r: string)
    ensures |r| >= (if d.unscaled < 0 then 2 else 1) && (r[0] == '-' <==> d.unscaled < 0)
    ensures var k := if d.unscaled < 0 then 1 else 0;
      IsDigit(r[k]) && (r[k] == '0' ==> k + 1 == |r| || r[k + 1] == '.')
  {
    if d.scale == 0 then
      IntText(d.unscaled)
    else if d.scale < 0 then
      if d.unscaled == 0 then "0" else IntText(d.unscaled) + Zeros(-d.scale)
    else
      var digits := NatText(Abs(d.unscaled));
      var sign := if d.unscaled < 0 then "-" else "";
      var point := |digits| - d.scale;
      if point > 0 then sign + digits[..point] + "." + digits[point..]
      else sign + "0." + Zeros(-point) + digits
  }

  /** Number of characters after the first '.', zero when there is none. */
  function FractionLength(s: string): nat {
    match IndexOfChar(s, '.', 0)
    case None => 0
    case Some(i) => |s| - i - 1
  }

  /** Reads plain decimal text: an optional '-', at least one digit, and
      optionally a '.' followed by at least one digit. The scale is the number
      of digits after the point. */
  function ParsePlain(s: string): (r: Option<BigDecimal>)
    ensures r.Some? ==> r.value.scale == FractionLength(s)
  {
    match IndexOfChar(s, '.', 0)
    case None => ParseParts(s, "", false)
    case Some(dot) => ParseParts(s[..dot], s[dot + 1..], true)
  }

  /** The number with integer part `intPart` (sign included) and fraction
      digits `frac`; a written point needs at least one digit after it. */
  function ParseParts(intPart: string, frac: string, pointed: bool): (r: Option<BigDecimal>)
    ensures r.Some? ==> r.value.scale == |frac|
  {
    var neg := |intPart| > 0 && intPart[0] == '-';
    var mag := if neg then intPart[1..] else intPart;
    if |mag| == 0 || !AllDigits(mag) || !AllDigits(frac) || (pointed && |frac| == 0) then None
    else
      assert AllDigits(mag + frac);
      Some(BigDecimal(Signed(neg, DigitsValue(mag + frac)), |frac|))
  }

  function Signed(neg: bool, v: nat): int {
    if neg then -(v as int) else v
  }

  /** The decimal `toPlainString` denotes: itself when its scale is not
      negative, otherwise the same number at scale 0. */
  function PlainForm(d: BigDecimal): (r: BigDecimal)
    ensures SameValue(d, r) && r.scale >= 0
  {
    if d.scale >= 0 then d else BigDecimal(d.unscaled * Pow10(-d.scale), 0)
  }

  function SignText(neg: bool): string {
    if neg then "-" else ""
  }

  /** Plain text with a point reads back as its digits, scaled by the
      number of fraction digits. */
  lemma ParsePlainPointed(neg: bool, i: string, f: string)
    requires |i| >= 1 && AllDigits(i) && |f| >= 1 && AllDigits(f)
    ensures AllDigits(i + f)
    ensures ParsePlain(SignText(neg) + i + "." + f) ==
      Some(BigDecimal(Signed(neg, DigitsValue(i + f)), |f|))
  {
    assert AllDigits(i + f);
    var s := SignText(neg) + i + "." + f;
    var dot := |SignText(neg)| + |i|;
    assert IsFirstCharFrom(s, '.', 0, dot);
    IndexOfCharFinds(s, '.', 0, dot);
    assert s[..dot] == SignText(neg) + i;
    assert s[dot + 1..] == f;
    ParsePartsSigned(neg, i, f, true);
  }

  /** The sign is read off the front of the integer part. */
  lemma ParsePartsSigned(neg: bool, i: string, f: string, pointed: bool)
    requires |i| >= 1 && AllDigits(i) && AllDigits(f) && (pointed ==> |f| >= 1)
    ensures AllDigits(i + f)
    ensures ParseParts(SignText(neg) + i, f, pointed) ==
      Some(BigDecimal(Signed(neg, DigitsValue(i + f)), |f|))
  {
    assert AllDigits(i + f);
    if neg {
      assert (SignText(neg) + i)[1..] == i;
    } else {
      assert SignText(neg) + i == i;
    }
  }

  /** Plain text without a point reads back as an integer at scale 0. */
  lemma ParsePlainWhole(neg: bool, i: string)
    requires |i| >= 1 && AllDigits(i)
    ensures ParsePlain(SignText(neg) + i) ==
      Some(BigDecimal(Signed(neg, DigitsValue(i)), 0))
  {
    var s := SignText(neg) + i;
    NoPointInWhole(neg, i);
    assert ParsePlain(s) == ParseParts(s, "", false);
    assert i + "" == i;
    ParsePartsSigned(neg, i, "", false);
  }

  /** A sign and digits hold no decimal point. */
  lemma NoPointInWhole(neg: bool, i: string)
    requires AllDigits(i)
    ensures IndexOfChar(SignText(neg) + i, '.', 0).None?
  {
    var s := SignText(neg) + i;
    forall j | 0 <= j < |s|
      ensures s[j] != '.'
    {
      if j >= |SignText(neg)| {
        assert s[j] == i[j - |SignText(neg)|];
      }
    }
  }

  /** `IntText` is a sign followed by the magnitude's digits. */
  lemma IntTextShape(n: int)
    ensures IntText(n) == SignText(n < 0) + NatText(Abs(n))
  {
    if n >= 0 {
      assert "" + NatText(n) == NatText(n);
    }
  }

  /** `toPlainString` is read back exactly: the same unscaled value and scale
      when the scale is not negative, the same number at scale 0 otherwise. */
  lemma PlainStringRoundTrip(d: BigDecimal)
    ensures ParsePlain(PlainString(d)) == Some(PlainForm(d))
  {
    NatTextValue(Abs(d.unscaled));
    if d.scale == 0 {
      IntTextShape(d.unscaled);
      ParsePlainWhole(d.unscaled < 0, NatText(Abs(d.unscaled)));
    } else if d.scale < 0 {
      RoundTripNegativeScale(d);
    } else if |NatText(Abs(d.unscaled))| > d.scale {
      RoundTripPointInside(d);
    } else {
      RoundTripPointBefore(d);
    }
  }

  lemma RoundTripNegativeScale(d: BigDecimal)
    requires d.scale < 0
    ensures ParsePlain(PlainString(d)) == Some(PlainForm(d))
  {
    if d.unscaled == 0 {
      RoundTripZeroNegativeScale(d);
    } else {
      RoundTripNonzeroNegativeScale(d);
    }
  }

  lemma RoundTripZeroNegativeScale(d: BigDecimal)
    requires d.scale < 0 && d.unscaled == 0
    ensures ParsePlain(PlainString(d)) == Some(PlainForm(d))
  {
    assert PlainString(d) == SignText(false) + "0";
    ParsePlainWhole(false, "0");
    assert DigitsValue("0") == 0;
    assert Signed(false, 0) == 0;
    assert PlainForm(d) == BigDecimal(0, 0);
  }

  lemma RoundTripNonzeroNegativeScale(d: BigDecimal)
    requires d.scale < 0 && d.unscaled != 0
    ensures ParsePlain(PlainString(d)) == Some(PlainForm(d))
  {
    var k: nat := -d.scale;
    var s := SignText(d.unscaled < 0) + (NatText(Abs(d.unscaled)) + Zeros(k));
    assert PlainString(d) == s by {
      PlainStringNegativeScale(d);
    }
    ParseScaledText(d.unscaled, k);
    PlainFormNegativeScale(d, k);
  }

  /** With a negative scale the plain form multiplies the zeros in. */
  lemma PlainFormNegativeScale(d: BigDecimal, k: nat)
    requires d.scale < 0 && k == -d.scale
    ensures PlainForm(d) == BigDecimal(d.unscaled * Pow10(k), 0)
  {
  }

  /** An integer's text followed by k zeros reads as the integer times ten to
      the k, at scale 0. */
  lemma ParseScaledText(u: int, k: nat)
    ensures ParsePlain(SignText(u < 0) + (NatText(Abs(u)) + Zeros(k))) == Some(BigDecimal(u * Pow10(k), 0))
  {
    var w := NatText(Abs(u)) + Zeros(k);
    ScaledDigits(u, k);
    var v := Abs(u) * Pow10(k);
    assert DigitsValue(w) == v;
    ParsePlainWhole(u < 0, w);
    SignedScaled(u, k);
    assert Signed(u < 0, v) == u * Pow10(k);
  }

  /** The digits of a magnitude followed by k zeros spell the magnitude
      times ten to the k. */
  lemma ScaledDigits(u: int, k: nat)
    ensures var w := NatText(Abs(u)) + Zeros(k);
      |w| >= 1 && AllDigits(w) && DigitsValue(w) == Abs(u) * Pow10(k)
  {
    NatTextValue(Abs(u));
    ZerosValue(Zeros(k));
    DigitsValueAppend(NatText(Abs(u)), Zeros(k));
  }

  lemma SignedScaled(u: int, k: nat)
    ensures Signed(u < 0, Abs(u) * Pow10(k)) == u * Pow10(k)
  {
    if u < 0 {
      NegateProduct(Abs(u), Pow10(k));
    }
  }

  /** With a negative scale the text is the integer followed by zeros. */
  lemma PlainStringNegativeScale(d: BigDecimal)
    requires d.scale < 0 && d.unscaled != 0
    ensures PlainString(d) == SignText(d.unscaled < 0) + (NatText(Abs(d.unscaled)) + Zeros(-d.scale))
  {
    IntTextShape(d.unscaled);
  }

  lemma RoundTripPointInside(d: BigDecimal)
    requires d.scale > 0 && |NatText(Abs(d.unscaled))| > d.scale
    ensures ParsePlain(PlainString(d)) == Some(PlainForm(d))
  {
    var u := d.unscaled;
    var digits := NatText(Abs(u));
    var point := |digits| - d.scale;
    var i, f := digits[..point], digits[point..];
    var s := SignText(u < 0) + i + "." + f;
    PlainStringPointInside(d);
    assert PlainString(d) == s;
    SplitDigits(u, point);
    ParsePlainPointed(u < 0, i, f);
    var v := DigitsValue(i + f);
    assert v == Abs(u);
    assert Signed(u < 0, v) == u;
    assert ParsePlain(s) == Some(BigDecimal(u, d.scale));
  }

  /** Splitting a magnitude's digits anywhere inside leaves two digit runs
      that together still spell the magnitude. */
  lemma SplitDigits(u: int, point: nat)
    requires 0 < point < |NatText(Abs(u))|
    ensures var digits := NatText(Abs(u));
      var i, f := digits[..point], digits[point..];
      && |i| >= 1 && AllDigits(i) && |f| >= 1 && AllDigits(f)
      && AllDigits(i + f) && DigitsValue(i + f) == Abs(u)
  {
    var digits := NatText(Abs(u));
    var i, f := digits[..point], digits[point..];
    assert i + f == digits;
    AllDigitsSlice(digits, 0, point);
    AllDigitsSlice(digits, point, |digits|);
    assert digits[point..|digits|] == f;
    NatTextValue(Abs(u));
  }

  /** When the digits outnumber the scale the point goes among them. */
  lemma PlainStringPointInside(d: BigDecimal)
    requires d.scale > 0 && |NatText(Abs(d.unscaled))| > d.scale
    ensures var digits := NatText(Abs(d.unscaled));
      var point := |digits| - d.scale;
      PlainString(d) == SignText(d.unscaled < 0) + digits[..point] + "." + digits[point..]
  {
  }

  lemma RoundTripPointBefore(d: BigDecimal)
    requires d.scale > 0 && |NatText(Abs(d.unscaled))| <= d.scale
    ensures ParsePlain(PlainString(d)) == Some(PlainForm(d))
  {
    var u := d.unscaled;
    var f := Zeros(d.scale - |NatText(Abs(u))|) + NatText(Abs(u));
    var s := SignText(u < 0) + "0" + "." + f;
    assert PlainString(d) == s by {
      PlainStringPointBefore(d);
    }
    assert ParsePlain(s) == Some(BigDecimal(u, d.scale)) by {
      PaddedFraction(u, d.scale);
      ParsePlainPointed(u < 0, "0", f);
    }
  }

  /** A magnitude padded with zeros on the left to `scale` digits, after a
      leading "0", still spells the magnitude. */
  lemma PaddedFraction(u: int, scale: nat)
    requires |NatText(Abs(u))| <= scale
    ensures var f := Zeros(scale - |NatText(Abs(u))|) + NatText(Abs(u));
      |f| == scale && AllDigits(f) && DigitsValue("0" + f) == Abs(u)
      && Signed(u < 0, DigitsValue("0" + f)) == u
  {
    var digits := NatText(Abs(u));
    var pad := Zeros(scale - |digits|);
    var f := pad + digits;
    AllDigitsConcat(pad, digits);
    NatTextValue(Abs(u));
    var z := "0" + pad;
    assert AllZeros(z) by {
      forall j | 0 <= j < |z|
        ensures z[j] == '0'
      {
        if j > 0 {
          assert z[j] == pad[j - 1];
        }
      }
    }
    LeadingZerosValue(z, digits);
    assert "0" + f == z + digits;
    var v := DigitsValue("0" + f);
    assert v == Abs(u);
    assert Signed(u < 0, v) == u;
  }

  /** When the scale is at least the number of digits, the text is "0." and
      zeros before the digits. */
  lemma PlainStringPointBefore(d: BigDecimal)
    requires d.scale > 0 && |NatText(Abs(d.unscaled))| <= d.scale
    ensures var digits := NatText(Abs(d.unscaled));
      PlainString(d) == SignText(d.unscaled < 0) + "0" + "." + (Zeros(d.scale - |digits|) + digits)
  {
    var digits := NatText(Abs(d.unscaled));
    var pad := Zeros(d.scale - |digits|);
    var sign := SignText(d.unscaled < 0);
    assert PlainString(d) == sign + "0." + pad + digits;
    assert sign + "0." + pad + digits == sign + "0" + "." + (pad + digits);
  }

  /** The scale of a decimal is the number of digits `toPlainString` puts
      after the point (none for a scale of zero or below). */
  lemma PlainStringFraction(d: BigDecimal)
    ensures FractionLength(PlainString(d)) == if d.scale > 0 then d.scale else 0
  {
    PlainStringRoundTrip(d);
  }

  /** Text the plain-decimal reader accepts is ASCII. */
  lemma ParsePlainAscii(s: string)
    requires ParsePlain(s).Some?
    ensures forall i :: 0 <= i < |s| ==> s[i] as int < 0x80
  {
    match IndexOfChar(s, '.', 0)
    case None =>
      PartsAscii(s, "", false);
    case Some(dot) =>
      PartsAscii(s[..dot], s[dot + 1..], true);
      forall i | 0 <= i < |s|
        ensures s[i] as int < 0x80
      {
        if i < dot {
          assert s[i] == s[..dot][i];
        } else if i > dot {
          assert s[i] == s[dot + 1..][i - dot - 1];
        }
      }
  }

  lemma PartsAscii(intPart: string, frac: string, pointed: bool)
    requires ParseParts(intPart, frac, pointed).Some?
    ensures forall i :: 0 <= i < |intPart| ==> intPart[i] as int < 0x80
    ensures forall i :: 0 <= i < |frac| ==> frac[i] as int < 0x80
  {
    if |intPart| > 0 && intPart[0] == '-' {
      forall i | 1 <= i < |intPart|
        ensures IsDigit(intPart[i])
      {
        assert intPart[i] == intPart[1..][i - 1];
      }
    }
  }
}

=== FILE: digits.dfy ===
/** Strings of ASCII decimal digits and the natural numbers they denote. */
module Digits {

  predicate IsDigit(c: char) {
    '0' <= c <= '9'
  }

  predicate AllDigits(s: string) {
    forall i :: 0 <= i < |s| ==> IsDigit(s[i])
  }

  predicate AllZeros(s: string) {
    forall i :: 0 <= i < |s| ==> s[i] == '0'
  }

  function Pow10(k: nat): (r: nat)
    ensures r >= 1
  {
    if k == 0 then 1 else 10 * Pow10(k - 1)
  }

  function DigitChar(d: nat): (c: char)
    requires d < 10
    ensures IsDigit(c) && (c as int) - ('0' as int) == d
  {
    (('0' as int) + d) as char
  }

  /** The number a digit string denotes; leading zeros add nothing. */
  function DigitsValue(s: string): (v: nat)
    requires AllDigits(s)
    ensures v < Pow10(|s|)
    decreases |s|
  {
    if |s| == 0 then 0
    else DigitsValue(s[..|s| - 1]) * 10 + ((s[|s| - 1] as int) - ('0' as int))
  }

  /** The canonical decimal text of `n`: no sign and no leading zero. */
  function NatText(n: nat): (r: string)
    ensures |r| >= 1 && AllDigits(r)
    ensures r[0] != '0' || r == "0"
  {
    if n < 10 then [DigitChar(n)] else NatText(n / 10) + [DigitChar(n % 10)]
  }

  /** `k` copies of '0'. */
  function Zeros(k: nat): (r: string)
    ensures |r| == k && AllZeros(r) && AllDigits(r)
  {
    seq(k, _ => '0')
  }

  /** `NatText` is inverted by `DigitsValue`. */
  lemma {:induction false} NatTextValue(n: nat)
    ensures DigitsValue(NatText(n)) == n
  {
    if n >= 10 {
      var t := NatText(n / 10) + [DigitChar(n % 10)];
      assert t[..|t| - 1] == NatText(n / 10);
      NatTextValue(n / 10);
    }
  }

  /** Every slice of a digit string is one. */
  lemma AllDigitsSlice(s: string, lo: int, hi: int)
    requires AllDigits(s) && 0 <= lo <= hi <= |s|
    ensures AllDigits(s[lo..hi])
  {
    forall j | 0 <= j < hi - lo
      ensures IsDigit(s[lo..hi][j])
    {
      assert s[lo..hi][j] == s[lo + j];
    }
  }

  lemma AllDigitsConcat(a: string, b: string)
    requires AllDigits(a) && AllDigits(b)
    ensures AllDigits(a + b)
  {
    forall j | 0 <= j < |a + b|
      ensures IsDigit((a + b)[j])
    {
      if j >= |a| {
        assert (a + b)[j] == b[j - |a|];
      }
    }
  }

  /** Appending digits shifts the value of the prefix left. */
  lemma {:induction false} DigitsValueAppend(a: string, b: string)
    requires AllDigits(a) && AllDigits(b)
    ensures AllDigits(a + b)
    ensures DigitsValue(a + b) == DigitsValue(a) * Pow10(|b|) + DigitsValue(b)
    decreases |b|
  {
    assert AllDigits(a + b);
    if |b| == 0 {
      assert a + b == a;
    } else {
      var b' := b[..|b| - 1];
      var d := (b[|b| - 1] as int) - ('0' as int);
      assert (a + b)[..|a + b| - 1] == a + b';
      assert (a + b)[|a + b| - 1] == b[|b| - 1];
      DigitsValueAppend(a, b');
      assert DigitsValue(a + b) == DigitsValue(a + b') * 10 + d;
      assert DigitsValue(b) == DigitsValue(b') * 10 + d;
      assert Pow10(|b|) == 10 * Pow10(|b'|);
      ShiftStep(DigitsValue(a), Pow10(|b'|), DigitsValue(b'), d);
    }
  }

  lemma ShiftStep(x: int, p: int, y: int, d: int)
    ensures (x * p + y) * 10 + d == x * (10 * p) + (y * 10 + d)
  {
  }

  /** A run of zeros denotes zero. */
  lemma {:induction false} ZerosValue(z: string)
    requires AllZeros(z)
    ensures AllDigits(z) && DigitsValue(z) == 0
    decreases |z|
  {
    if |z| > 0 {
      ZerosValue(z[..|z| - 1]);
    }
  }

  /** Leading zeros do not change the value of a digit string. */
  lemma LeadingZerosValue(z: string, s: string)
    requires AllZeros(z) && AllDigits(s)
    ensures AllDigits(z + s) && DigitsValue(z + s) == DigitsValue(s)
  {
    ZerosValue(z);
    DigitsValueAppend(z, s);
  }
}

=== FILE: encoder.dfy ===
/** Encoding host values as `query.proto` values: the `TypedValue`
    type-dispatch table, `buildBindVariable` and `bindQuery`. */
module ValueEncoder {
  import opened Results
  import opened Primitives
  import opened IntegerText
  import opened BigDecimals
  import Utf8

  /** The `Query.Type` tags the encoder produces. */
  datatype QueryType = NullType | Int64 | Uint64 | Float64 | Decimal | VarChar | VarBinary | Tuple

  /** A type tag and the payload bytes that it says how to read; also the
      shape of `Query.Value`. */
  datatype TypedValue = TypedValue(typ: QueryType, value: seq<byte>)

  /** `Query.BindVariable`: a scalar sets `typ` and `value`; a tuple has type
      `Tuple` and lists its elements in `values`. */
  datatype BindVariable = BindVariable(typ: QueryType, value: seq<byte>, values: seq<TypedValue>)

  /** `Query.BoundQuery`: SQL text and its named bind variables. */
  datatype BoundQuery = BoundQuery(sql: string, bindVariables: map<string, BindVariable>)

  /** The runtime kinds of `Object` the encoder tells apart, one per arm of the
      dispatch, plus `List` for any `Iterable` and `Other` for everything else. */
  datatype HostValue =
    | Null
    | Str(s: string)
    | Bytes(bytes: seq<byte>)
    | Integer(i32: int32)
    | Long(i64: int64)
    | Short(i16: int16)
    | Byte(i8: int8)
    | BigInteger(big: int)
    | UnsignedLong(u64: uint64)
    | FloatingPoint(rendered: string)   // a Float or Double, with its `toString`
    | Boolean(flag: bool)
    | BigDec(dec: BigDecimal)
    | Bind(bv: BindVariable)
    | List(elements: seq<HostValue>)
    | Other(className: string)

  /** The `IllegalArgumentException`s the encoder throws. */
  datatype EncodeError =
    | UnsupportedType(offending: HostValue)   // "unsupported type for Query.Value proto"
    | EmptyList                               // "Can't pass empty list as list bind variable."

  /** The number an integer-kinded host value holds. */
  function IntegralValue(v: HostValue): Option<int> {
    match v
    case Integer(n) => Some(n as int)
    case Long(n) => Some(n as int)
    case Short(n) => Some(n as int)
    case Byte(n) => Some(n as int)
    case BigInteger(n) => Some(n)
    case UnsignedLong(n) => Some(n as int)
    case _ => None
  }

  /** `new TypedValue(value)`: the dispatch table. Constructors are disjoint,
      so the order of Java's `instanceof` tests leaves nothing to choose. */
  function ToTypedValue(v: HostValue): (r: Result<TypedValue, EncodeError>)
    ensures r.Failure? <==> v.Bind? || v.List? || v.Other?
    ensures r.Failure? ==> r.error == UnsupportedType(v)
    ensures r.Success? ==> (r.value.typ == NullType <==> v.Null?) && (v.Null? ==> r.value.value == [])
    ensures v.Str? ==> r == Success(TypedValue(VarChar, Utf8.Encode(v.s)))
    ensures v.Bytes? ==> r == Success(TypedValue(VarBinary, v.bytes))
    ensures v.Integer? || v.Long? || v.Short? || v.Byte? ==> r.Success? && r.value.typ == Int64
    ensures v.BigInteger? ==> r.Success? && r.value.typ == VarChar
    ensures v.UnsignedLong? ==> r.Success? && r.value.typ == Uint64
    ensures IntegralValue(v).Some? ==> r.value.value == Utf8.Encode(IntText(IntegralValue(v).value))
    ensures v.FloatingPoint? ==> r == Success(TypedValue(Float64, Utf8.Encode(v.rendered)))
    ensures v.Boolean? ==> r == Success(TypedValue(Int64, Utf8.Encode(if v.flag then "1" else "0")))
    ensures v.BigDec? ==> r == Success(TypedValue(Decimal, Utf8.Encode(PlainString(CapScale(v.dec)))))
  {
    match v
    case Null => Success(TypedValue(NullType, []))
    case Str(s) => Success(TypedValue(VarChar, Utf8.Encode(s)))
    case Bytes(b) => Success(TypedValue(VarBinary, b))
    case Integer(n) => Success(TypedValue(Int64, Utf8.Encode(IntText(n as int))))
    case Long(n) => Success(TypedValue(Int64, Utf8.Encode(IntText(n as int))))
    case Short(n) => Success(TypedValue(Int64, Utf8.Encode(IntText(n as int))))
    case Byte(n) => Success(TypedValue(Int64, Utf8.Encode(IntText(n as int))))
    case BigInteger(n) => Success(TypedValue(VarChar, Utf8.Encode(IntText(n))))
    case UnsignedLong(n) => Success(TypedValue(Uint64, Utf8.Encode(IntText(n as int))))
    case FloatingPoint(text) => Success(TypedValue(Float64, Utf8.Encode(text)))
    case Boolean(b) => Success(TypedValue(Int64, Utf8.Encode(if b then "1" else "0")))
    case BigDec(d) => Success(TypedValue(Decimal, Utf8.Encode(PlainString(CapScale(d)))))
    case Bind(_) => Failure(UnsupportedType(v))
    case List(_) => Failure(UnsupportedType(v))
    case Other(_) => Failure(UnsupportedType(v))
  }

  /** A payload read back as text, when every byte is ASCII. */
  function PayloadText(b: seq<byte>): Option<string> {
    if forall i :: 0 <= i < |b| ==> b[i] < 0x80 then Some(Utf8.DecodeAscii(b)) else None
  }

  /** A payload read back as a signed decimal integer. */
  function ReadInteger(tv: TypedValue): Option<int> {
    match PayloadText(tv.value)
    case Some(t) => ParseInteger(t)
    case None => None
  }

  /** A payload read back as a plain decimal. */
  function ReadDecimal(tv: TypedValue): Option<BigDecimal> {
    match PayloadText(tv.value)
    case Some(t) => ParsePlain(t)
    case None => None
  }

  /** ASCII text is read back from its UTF-8 payload unchanged. */
  lemma PayloadOfAscii(s: string)
    requires Utf8.IsAscii(s)
    ensures PayloadText(Utf8.Encode(s)) == Some(s)
  {
    Utf8.AsciiRoundTrip(s);
  }

  /** Every integer kind is sent as decimal text that reads back as the same
      number: `Integer`, `Long`, `Short` and `Byte` tagged `Int64`, a
      `BigInteger` tagged `VarChar` and an `UnsignedLong` tagged `Uint64`. */
  lemma IntegralRoundTrip(v: HostValue)
    requires IntegralValue(v).Some?
    ensures ToTypedValue(v).Success?
    ensures ToTypedValue(v).value.typ ==
      (if v.BigInteger? then VarChar else if v.UnsignedLong? then Uint64 else Int64)
    ensures ReadInteger(ToTypedValue(v).value) == IntegralValue(v)
  {
    var n := IntegralValue(v).value;
    IntTextRoundTrip(n);
    ParseIntegerAscii(IntText(n));
    PayloadOfAscii(IntText(n));
  }

  /** A boolean is sent as the integer 1 or 0. */
  lemma BooleanRoundTrip(b: bool)
    ensures ToTypedValue(Boolean(b)).Success?
    ensures ToTypedValue(Boolean(b)).value.typ == Int64
    ensures ReadInteger(ToTypedValue(Boolean(b)).value) == Some(if b then 1 else 0)
  {
    var t := if b then "1" else "0";
    PayloadOfAscii(t);
  }

  /** A `BigDecimal` is sent as plain text that reads back as the capped
      decimal: exactly the input when its scale is between 0 and 30, and
      otherwise within half a unit of the 30th fraction digit. Its text never
      has more than 30 digits after the point. */
  lemma DecimalRoundTrip(d: BigDecimal)
    ensures ToTypedValue(BigDec(d)).Success?
    ensures ToTypedValue(BigDec(d)).value.typ == Decimal
    ensures ReadDecimal(ToTypedValue(BigDec(d)).value) == Some(PlainForm(CapScale(d)))
    ensures 0 <= d.scale <= MaxDecimalUnit ==> ReadDecimal(ToTypedValue(BigDec(d)).value) == Some(d)
    ensures FractionLength(PlainString(CapScale(d))) <= MaxDecimalUnit
  {
    var t := PlainString(CapScale(d));
    PlainStringRoundTrip(CapScale(d));
    PlainStringFraction(CapScale(d));
    ParsePlainAscii(t);
    PayloadOfAscii(t);
  }

  /** The tag says how to read the payload: no bytes for `NullType`, an
      integer in the 64-bit signed range for `Int64`, one in the unsigned range
      for `Uint64`, and a plain decimal of scale at most 30 for `Decimal`. */
  lemma TagDeterminesPayload(v: HostValue)
    requires ToTypedValue(v).Success?
    ensures var tv := ToTypedValue(v).value;
      && (tv.typ == NullType ==> tv.value == [])
      && (tv.typ == Int64 ==>
            ReadInteger(tv).Some? && -0x8000_0000_0000_0000 <= ReadInteger(tv).value < 0x8000_0000_0000_0000)
      && (tv.typ == Uint64 ==>
            ReadInteger(tv).Some? && 0 <= ReadInteger(tv).value < 0x1_0000_0000_0000_0000)
      && (tv.typ == Decimal ==>
            ReadDecimal(tv).Some? && 0 <= ReadDecimal(tv).value.scale <= MaxDecimalUnit)
  {
    match v
    case Boolean(b) => BooleanRoundTrip(b);
    case BigDec(d) => DecimalRoundTrip(d);
    case _ =>
      if IntegralValue(v).Some? {
        IntegralRoundTrip(v);
      }
  }

  /** `i` is the first element that the dispatch table rejects. */
  predicate FirstRejected(elems: seq<HostValue>, i: int) {
    0 <= i < |elems| && ToTypedValue(elems[i]).Failure? &&
    forall j :: 0 <= j < i ==> ToTypedValue(elems[j]).Success?
  }

  /** The loop over a list's elements: each element goes through the dispatch
      table directly, in order; the first rejected element ends it. */
  function EncodeElements(elems: seq<HostValue>): (r: Result<seq<TypedValue>, EncodeError>)
    ensures r.Success? <==> forall i :: 0 <= i < |elems| ==> ToTypedValue(elems[i]).Success?
    ensures r.Success? ==> |r.value| == |elems|
    ensures r.Success? ==> forall i :: 0 <= i < |elems| ==> ToTypedValue(elems[i]) == Success(r.value[i])
    ensures r.Failure? ==> exists i :: FirstRejected(elems, i) && r.error == ToTypedValue(elems[i]).error
  {
    if |elems| == 0 then Success([])
    else
      match ToTypedValue(elems[0])
      case Failure(e) =>
        assert FirstRejected(elems, 0);
        Failure(e)
      case Success(first) =>
        match EncodeElements(elems[1..])
        case Failure(e) =>
          ghost var i :| FirstRejected(elems[1..], i) && e == ToTypedValue(elems[1..][i]).error;
          assert FirstRejected(elems, i + 1);
          Failure(e)
        case Success(rest) =>
          Success([first] + rest)
  }

  /** `buildBindVariable`: a `BindVariable` passes through, an empty list is
      refused, a non-empty list becomes a `Tuple` of its encoded elements, and
      anything else is one encoded scalar. */
  function BuildBindVariable(v: HostValue): (r: Result<BindVariable, EncodeError>)
    ensures v.Bind? ==> r == Success(v.bv)
    ensures v.List? && |v.elements| == 0 ==> r == Failure(EmptyList)
    ensures v.List? && |v.elements| > 0 ==>
      (r.Success? <==> forall i :: 0 <= i < |v.elements| ==> ToTypedValue(v.elements[i]).Success?)
    ensures v.List? && r.Success? ==>
      && r.value.typ == Tuple
      && r.value.value == []
      && |r.value.values| == |v.elements| > 0
      && forall i :: 0 <= i < |v.elements| ==> ToTypedValue(v.elements[i]) == Success(r.value.values[i])
    ensures !v.Bind? && !v.List? ==>
      (r.Success? <==> ToTypedValue(v).Success?) &&
      (r.Success? ==> r.value == BindVariable(ToTypedValue(v).value.typ, ToTypedValue(v).value.value, []))
    ensures v.List? && |v.elements| > 0 && r.Failure? ==>
      exists i :: FirstRejected(v.elements, i) && r.error == ToTypedValue(v.elements[i]).error
    ensures !v.Bind? && !v.List? && r.Failure? ==> r.error == ToTypedValue(v).error
  {
    match v
    case Bind(bv) => Success(bv)
    case List(elems) =>
      if |elems| == 0 then Failure(EmptyList)
      else (
        match EncodeElements(elems)
        case Failure(e) => Failure(e)
        case Success(values) => Success(BindVariable(Tuple, [], values)))
    case _ =>
      match ToTypedValue(v)
      case Failure(e) => Failure(e)
      case Success(tv) => Success(BindVariable(tv.typ, tv.value, []))
  }

  /** List elements skip `buildBindVariable`: a `BindVariable` or a nested
      list inside a list is refused, although on its own a `BindVariable` is
      passed through and a non-empty list of scalars is accepted. */
  lemma NestedElementRejected(elems: seq<HostValue>, i: nat)
    requires i < |elems| && (elems[i].Bind? || elems[i].List?)
    ensures BuildBindVariable(List(elems)).Failure?
    ensures BuildBindVariable(List(elems)).error.UnsupportedType?
  {
    var r := EncodeElements(elems);
    assert ToTypedValue(elems[i]).Failure?;
    assert r.Failure?;
    var k :| FirstRejected(elems, k) && r.error == ToTypedValue(elems[k]).error;
  }

  /** The passthrough holds at the top level only. */
  lemma BindVariableOnlyAtTopLevel(bv: BindVariable)
    ensures BuildBindVariable(Bind(bv)) == Success(bv)
    ensures BuildBindVariable(List([Bind(bv)])) == Failure(UnsupportedType(Bind(bv)))
  {
    var elems := [Bind(bv)];
    assert ToTypedValue(elems[0]).Failure?;
    var k :| FirstRejected(elems, k) && EncodeElements(elems).error == ToTypedValue(elems[k]).error;
  }

  /** Each element of an accepted list is encoded as it would be on its own:
      the tuple's i-th value has the type and bytes of the element's scalar
      bind variable. */
  lemma TupleElementsMatchScalars(elems: seq<HostValue>)
    requires BuildBindVariable(List(elems)).Success?
    ensures forall i :: 0 <= i < |elems| ==>
      var tv := BuildBindVariable(List(elems)).value.values[i];
      BuildBindVariable(elems[i]) == Success(BindVariable(tv.typ, tv.value, []))
  {
    var values := BuildBindVariable(List(elems)).value.values;
    forall i | 0 <= i < |elems|
      ensures BuildBindVariable(elems[i]) == Success(BindVariable(values[i].typ, values[i].value, []))
    {
      assert ToTypedValue(elems[i]) == Success(values[i]);
    }
  }

  /** `order` lists the keys of `vars`: the iteration order of its entry set. */
  predicate ListsKeys(order: seq<string>, vars: map<string, HostValue>) {
    (forall k :: k in vars ==> k in order) && (forall k :: k in order ==> k in vars)
  }

  /** `bindQuery`: the SQL text with every entry of `vars` encoded under its
      name, or no bind variables when `vars` is null. Entries are visited in
      `order`; the first one refused ends the call with its exception. */
  method BindQuery(sql: string, vars: Option<map<string, HostValue>>, order: seq<string>)
    returns (r: Result<BoundQuery, EncodeError>)
    requires vars.Some? ==> ListsKeys(order, vars.value)
    ensures vars.None? ==> r == Success(BoundQuery(sql, map[]))
    ensures r.Success? ==> r.value.sql == sql
    ensures vars.Some? ==>
      (r.Success? <==> forall k :: k in vars.value ==> BuildBindVariable(vars.value[k]).Success?)
    ensures vars.Some? && r.Success? ==> r.value.bindVariables.Keys == vars.value.Keys
    ensures vars.Some? && r.Success? ==>
      forall k :: k in vars.value ==> BuildBindVariable(vars.value[k]) == Success(r.value.bindVariables[k])
    ensures vars.Some? && r.Failure? ==>
      exists i :: 0 <= i < |order| && order[i] in vars.value &&
        BuildBindVariable(vars.value[order[i]]) == Failure(r.error) &&
        forall j :: 0 <= j < i ==> BuildBindVariable(vars.value[order[j]]).Success?
  {
    if vars.None? {
      return Success(BoundQuery(sql, map[]));
    }
    var m := vars.value;
    var bound: map<string, BindVariable> := map[];
    var i := 0;
    while i < |order|
      invariant 0 <= i <= |order|
      invariant forall k :: k in bound <==> k in order[..i]
      invariant forall k :: k in bound ==> k in m && BuildBindVariable(m[k]) == Success(bound[k])
      invariant forall j :: 0 <= j < i ==> BuildBindVariable(m[order[j]]).Success?
    {
      var key := order[i];
      var bv := BuildBindVariable(m[key]);
      if bv.Failure? {
        return Failure(bv.error);
      }
      bound := bound[key := bv.value];
      assert order[..i + 1] == order[..i] + [key];
      i := i + 1;
    }
    assert order[..i] == order;
    return Success(BoundQuery(sql, bound));
  }
}

=== FILE: errors.dfy ===
/** Turning a VTGate `RPCError` into the SQL exception a JDBC caller sees,
    with the MySQL errno and SQLSTATE read out of the error text. */
module ErrorClassifier {
  import opened Results
  import opened Primitives
  import opened Text
  import opened Digits
  import opened IntegerText

  const ErrnoMarker: string := "(errno "
  const SqlStateMarker: string := "(sqlstate "
  const UnclassifiedPrefix: string := "Vitess RPC error: "

  /** The status codes of `vtrpc.Code` that the classifier names. `OtherCode`
      stands for every code not named here, including values this client does
      not know; the switch treats them all alike, so which one it is is not kept. */
  datatype RpcCode =
    | Ok
    | InvalidArgument
    | DeadlineExceeded
    | AlreadyExists
    | Unavailable
    | Unauthenticated
    | Aborted
    | OtherCode

  /** `vtrpc.RPCError`: a code and free text that may embed
      "(errno N)" and "(sqlstate S)" tags. */
  datatype RpcError = RpcError(code: RpcCode, message: string)

  /** The `java.sql.SQLException` subclasses `checkError` throws. */
  datatype Category =
    | SyntaxError            // SQLSyntaxErrorException
    | Timeout                // SQLTimeoutException
    | IntegrityViolation     // SQLIntegrityConstraintViolationException
    | Transient              // SQLTransientException
    | InvalidAuthorization   // SQLInvalidAuthorizationSpecException
    | Recoverable            // SQLRecoverableException
    | NonTransient           // SQLNonTransientException

  /** A thrown exception: its class, reason text, SQLSTATE and vendor code. */
  datatype SqlException = SqlException(category: Category, reason: string, sqlState: string, errno: int32)

  /** The one code each specific category is thrown for; `NonTransient` is the
      catch-all and stands for no single code. */
  function CategoryCode(c: Category): Option<RpcCode> {
    match c
    case SyntaxError => Some(InvalidArgument)
    case Timeout => Some(DeadlineExceeded)
    case IntegrityViolation => Some(AlreadyExists)
    case Transient => Some(Unavailable)
    case InvalidAuthorization => Some(Unauthenticated)
    case Recoverable => Some(Aborted)
    case NonTransient => None
  }

  /** `p` is where `marker` first occurs and `q` is the first ')' after it. */
  predicate TagSpan(msg: string, marker: string, p: int, q: int) {
    IsFirstOccurrence(msg, marker, p) && IsFirstCharFrom(msg, ')', p + |marker|, q)
  }

  /** The scan `getErrno` and `getSQLState` share: the text from just after
      the first `marker` up to the next ')', or None when the marker is
      missing, ends the message, or is never closed. */
  function TagText(msg: string, marker: string): (r: Option<string>)
    ensures r.Some? ==> ')' !in r.value
    ensures r.Some? ==> |marker| + |r.value| < |msg|
  {
    match IndexOf(msg, marker)
    case None => None
    case Some(tagPos) =>
      var start := tagPos + |marker|;
      if start >= |msg| then None
      else
        match IndexOfChar(msg, ')', start)
        case None => None
        case Some(end) => Some(msg[start..end])
  }

  /** When the marker occurs and a ')' follows it, the tag is exactly the text
      between the first marker and the first such ')'. */
  lemma TagTextFound(msg: string, marker: string, p: nat, q: nat)
    requires TagSpan(msg, marker, p, q)
    ensures TagText(msg, marker) == Some(msg[p + |marker|..q])
  {
    FirstOccurrenceUnique(msg, marker, p, IndexOf(msg, marker).value);
    IndexOfCharFinds(msg, ')', p + |marker|, q);
  }

  /** Without the marker there is no tag. */
  lemma TagTextMissing(msg: string, marker: string)
    requires forall p :: !OccursAt(msg, marker, p)
    ensures TagText(msg, marker).None?
  {
  }

  /** A first marker with no ')' anywhere after it (in particular one that
      ends the message) gives no tag. */
  lemma TagTextUnclosed(msg: string, marker: string, p: nat)
    requires IsFirstOccurrence(msg, marker, p)
    requires forall j :: p + |marker| <= j < |msg| ==> msg[j] != ')'
    ensures TagText(msg, marker).None?
  {
    FirstOccurrenceUnique(msg, marker, p, IndexOf(msg, marker).value);
  }

  /** Every tag found is a contiguous slice of the message that starts right
      after the first marker and stops right before the first ')'. */
  lemma TagTextIsSpan(msg: string, marker: string)
    requires TagText(msg, marker).Some?
    ensures exists p, q :: TagSpan(msg, marker, p, q) && TagText(msg, marker).value == msg[p + |marker|..q]
  {
    var p := IndexOf(msg, marker).value;
    var q := IndexOfChar(msg, ')', p + |marker|).value;
    assert TagSpan(msg, marker, p, q);
  }

  /** `getErrno`: 1 when there is no message at all, otherwise the errno tag
      parsed as a Java `int`, with 0 for a missing tag or one that does not
      parse. */
  function GetErrno(msg: Option<string>): (r: int32)
    ensures msg.None? ==> r == 1
    ensures msg.Some? && r != 0 ==>
      TagText(msg.value, ErrnoMarker).Some? && ParseInt(TagText(msg.value, ErrnoMarker).value) == Some(r)
  {
    match msg
    case None => 1
    case Some(m) =>
      match TagText(m, ErrnoMarker)
      case None => 0
      case Some(t) => ParseInt(t).GetOr(0)
  }

  /** `getSQLState`: the sqlstate tag, or "" when there is no message or no
      closed tag. */
  function GetSqlState(msg: Option<string>): (r: string)
    ensures msg.None? ==> r == ""
    ensures ')' !in r
    ensures msg.Some? && r != "" ==> TagText(msg.value, SqlStateMarker) == Some(r)
  {
    match msg
    case None => ""
    case Some(m) => TagText(m, SqlStateMarker).GetOr("")
  }

  /** The errno is 0 when the message has no errno tag, when the tag ends the
      message or is never closed, and the parsed text when it is closed. */
  lemma ErrnoCases(msg: string, p: nat, q: nat)
    ensures (forall j :: !OccursAt(msg, ErrnoMarker, j)) ==> GetErrno(Some(msg)) == 0
    ensures IsFirstOccurrence(msg, ErrnoMarker, p) && (forall j :: p + |ErrnoMarker| <= j < |msg| ==> msg[j] != ')')
      ==> GetErrno(Some(msg)) == 0
    ensures TagSpan(msg, ErrnoMarker, p, q) ==>
      GetErrno(Some(msg)) == ParseInt(msg[p + |ErrnoMarker|..q]).GetOr(0 as int32)
  {
    if forall j :: !OccursAt(msg, ErrnoMarker, j) {
      TagTextMissing(msg, ErrnoMarker);
    }
    if IsFirstOccurrence(msg, ErrnoMarker, p) && (forall j :: p + |ErrnoMarker| <= j < |msg| ==> msg[j] != ')') {
      TagTextUnclosed(msg, ErrnoMarker, p);
    }
    if TagSpan(msg, ErrnoMarker, p, q) {
      TagTextFound(msg, ErrnoMarker, p, q);
    }
  }

  /** The SQLSTATE is "" when the message has no sqlstate tag, when the tag
      ends the message or is never closed, and the tag text when it is closed. */
  lemma SqlStateCases(msg: string, p: nat, q: nat)
    ensures (forall j :: !OccursAt(msg, SqlStateMarker, j)) ==> GetSqlState(Some(msg)) == ""
    ensures IsFirstOccurrence(msg, SqlStateMarker, p) && (forall j :: p + |SqlStateMarker| <= j < |msg| ==> msg[j] != ')')
      ==> GetSqlState(Some(msg)) == ""
    ensures TagSpan(msg, SqlStateMarker, p, q) ==>
      GetSqlState(Some(msg)) == msg[p + |SqlStateMarker|..q]
  {
    if forall j :: !OccursAt(msg, SqlStateMarker, j) {
      TagTextMissing(msg, SqlStateMarker);
    }
    if IsFirstOccurrence(msg, SqlStateMarker, p) && (forall j :: p + |SqlStateMarker| <= j < |msg| ==> msg[j] != ')') {
      TagTextUnclosed(msg, SqlStateMarker, p);
    }
    if TagSpan(msg, SqlStateMarker, p, q) {
      TagTextFound(msg, SqlStateMarker, p, q);
    }
  }

  /** `checkError`: returns normally for no error or `OK`; otherwise throws the
      exception of the code's category, carrying the errno and SQLSTATE of the
      message. `describe` stands for `RPCError.toString()`. */
  function CheckError(error: Option<RpcError>, describe: RpcError -> string): (r: Outcome<SqlException>)
    ensures r.Pass? <==> error.None? || error.value.code == Ok
    ensures r.Fail? ==> r.error.errno == GetErrno(Some(error.value.message))
    ensures r.Fail? ==> r.error.sqlState == GetSqlState(Some(error.value.message))
    ensures r.Fail? && r.error.category != NonTransient ==>
      CategoryCode(r.error.category) == Some(error.value.code) && r.error.reason == describe(error.value)
    ensures r.Fail? && r.error.category == NonTransient ==>
      (forall c :: CategoryCode(c) != Some(error.value.code)) &&
      r.error.reason == UnclassifiedPrefix + describe(error.value)
  {
    match error
    case None => Pass
    case Some(e) =>
      match CodeCategory(e.code)
      case None => Pass
      case Some(category) =>
        var text := describe(e);
        var reason := if category == NonTransient then UnclassifiedPrefix + text else text;
        Fail(SqlException(category, reason, GetSqlState(Some(e.message)), GetErrno(Some(e.message))))
  }

  /** The switch in `checkError`: no exception for `OK`, the category a code
      stands for, and `NonTransient` for every code no category claims. */
  function CodeCategory(code: RpcCode): (r: Option<Category>)
    ensures r.None? <==> code == Ok
    ensures r.Some? && r.value != NonTransient ==> CategoryCode(r.value) == Some(code)
    ensures r.Some? && r.value == NonTransient ==> forall c :: CategoryCode(c) != Some(code)
  {
    match code
    case Ok => None
    case InvalidArgument => Some(SyntaxError)
    case DeadlineExceeded => Some(Timeout)
    case AlreadyExists => Some(IntegrityViolation)
    case Unavailable => Some(Transient)
    case Unauthenticated => Some(InvalidAuthorization)
    case Aborted => Some(Recoverable)
    case OtherCode => Some(NonTransient)
  }

  /** The category table read backwards: an error whose code is the one a
      specific category stands for is thrown as exactly that category. */
  lemma CheckErrorByCategory(e: RpcError, describe: RpcError -> string, c: Category)
    requires CategoryCode(c) == Some(e.code)
    ensures CheckError(Some(e), describe).Fail?
    ensures CheckError(Some(e), describe).error.category == c
  {
    CodeCategoryInverse(e.code, c);
  }

  /** `CodeCategory` undoes `CategoryCode`. */
  lemma CodeCategoryInverse(code: RpcCode, c: Category)
    requires CategoryCode(c) == Some(code)
    ensures CodeCategory(code) == Some(c)
  {
  }

  /** The errno of a duplicate-key message is read out of its tag. */
  lemma DuplicateEntryErrno()
    ensures GetErrno(Some("Duplicate entry (errno 1062) (sqlstate 23000)")) == 1062
  {
    DuplicateEntryErrnoTag();
    ParseInt1062();
  }

  /** The errno tag of the duplicate-key message is "1062". */
  lemma DuplicateEntryErrnoTag()
    ensures TagText("Duplicate entry (errno 1062) (sqlstate 23000)", ErrnoMarker) == Some("1062")
  {
    var pre := "Duplicate entry ";
    assert pre + ErrnoMarker + "1062" + ")" + (" " + SqlStateMarker + "23000)")
      == "Duplicate entry (errno 1062) (sqlstate 23000)";
    forall j | 0 <= j < |pre|
      ensures pre[j] != '('
    {
    }
    TagAfterPrefix(pre, ErrnoMarker, "1062", " " + SqlStateMarker + "23000)");
  }

  lemma ParseInt1062()
    ensures ParseInt("1062") == Some(1062)
  {
    var t := IntText(1062);
    assert t == "1062" by {
      assert NatText(1) == "1";
      assert NatText(10) == NatText(1) + [DigitChar(0)];
      assert NatText(106) == NatText(10) + [DigitChar(6)];
      assert NatText(1062) == NatText(106) + [DigitChar(2)];
    }
    IntTextRoundTrip(1062);
  }

  /** The SQLSTATE of a duplicate-key message is read out of its tag. */
  lemma DuplicateEntrySqlState()
    ensures GetSqlState(Some("Duplicate entry (errno 1062) (sqlstate 23000)")) == "23000"
  {
    var pre := "Duplicate entry (errno 1062) ";
    assert pre + SqlStateMarker + "23000" + ")" + ""
      == "Duplicate entry (errno 1062) (sqlstate 23000)";
    forall j | 0 <= j < |pre| && pre[j] == '('
      ensures j + 1 < |pre| && pre[j + 1] != SqlStateMarker[1]
    {
      assert j == 16;
    }
    TagAfterPrefix(pre, SqlStateMarker, "23000", "");
  }

  /** A tag placed right after a prefix in which the marker cannot start is
      found: the message `pre + marker + tag + ")" + rest` yields `tag` when
      `tag` holds no ')'. */
  lemma TagAfterPrefix(pre: string, marker: string, tag: string, rest: string)
    requires |marker| >= 2 && marker[0] == '('
    requires forall j :: 0 <= j < |pre| && pre[j] == '(' ==> j + 1 < |pre| && pre[j + 1] != marker[1]
    requires ')' !in tag
    ensures TagText(pre + marker + tag + ")" + rest, marker) == Some(tag)
  {
    var m := pre + marker + tag + ")" + rest;
    var p, q := |pre|, |pre| + |marker| + |tag|;
    assert m[p..p + |marker|] == marker by {
      assert m == pre + marker + (tag + ")" + rest);
      MiddleSlice(pre, marker, tag + ")" + rest);
    }
    assert m[..p] == pre;
    MarkerNotInPrefix(pre, marker, m);
    assert m[p + |marker|..q] == tag by {
      assert m == (pre + marker) + tag + (")" + rest);
      MiddleSlice(pre + marker, tag, ")" + rest);
    }
    NoCharInSlice(m, ')', p + |marker|, q);
    assert m[q] == ')';
    assert TagSpan(m, marker, p, q);
    TagTextFound(m, marker, p, q);
  }

  /** A marker opening with "(x" cannot start inside a prefix in which every
      '(' is followed by something other than 'x'. */
  lemma MarkerNotInPrefix(pre: string, marker: string, m: string)
    requires |marker| >= 2 && marker[0] == '('
    requires forall j :: 0 <= j < |pre| && pre[j] == '(' ==> j + 1 < |pre| && pre[j + 1] != marker[1]
    requires |pre| <= |m| && m[..|pre|] == pre
    ensures forall j :: 0 <= j < |pre| ==> !OccursAt(m, marker, j)
  {
    forall j | 0 <= j < |pre| && j + |marker| <= |m|
      ensures !OccursAt(m, marker, j)
    {
      assert m[j] == m[..|pre|][j] == pre[j];
      if pre[j] == '(' {
        assert m[j + 1] == m[..|pre|][j + 1] == pre[j + 1];
        assert m[j..j + |marker|][1] == m[j + 1];
      } else {
        assert m[j..j + |marker|][0] == m[j];
      }
    }
  }

  /** Messages without tags, with an empty tag, or with an unclosed tag give
      the defaults. */
  lemma DefaultExamples()
    ensures GetErrno(Some("no tags here")) == 0
    ensures GetSqlState(Some("no tags here")) == ""
    ensures GetErrno(Some("(errno )")) == 0
    ensures GetErrno(Some("(errno 12")) == 0
  {
    NoTagsExample();
    EmptyTagExample();
    TagTextUnclosed("(errno 12", ErrnoMarker, 0);
  }

  /** A message without any '(' has neither tag. */
  lemma NoTagsExample()
    ensures GetErrno(Some("no tags here")) == 0
    ensures GetSqlState(Some("no tags here")) == ""
  {
    var none := "no tags here";
    forall j | 0 <= j < |none|
      ensures none[j] != '('
    {
    }
    AbsentWithoutFirstChar(none, ErrnoMarker);
    TagTextMissing(none, ErrnoMarker);
    AbsentWithoutFirstChar(none, SqlStateMarker);
    TagTextMissing(none, SqlStateMarker);
  }

  /** An empty errno tag does not parse and gives 0. */
  lemma EmptyTagExample()
    ensures GetErrno(Some("(errno )")) == 0
  {
    assert TagSpan("(errno )", ErrnoMarker, 0, 7);
    TagTextFound("(errno )", ErrnoMarker, 0, 7);
  }

  /** An UNAVAILABLE error is thrown as a transient exception carrying the
      errno of its message. */
  lemma UnavailableExample(describe: RpcError -> string)
    ensures CheckError(Some(RpcError(Unavailable, "(errno 0)")), describe) ==
      Fail(SqlException(Transient, describe(RpcError(Unavailable, "(errno 0)")), "", 0))
  {
    ZeroErrnoTags();
  }

  /** `"(errno 0)"` carries errno 0 and no SQLSTATE. */
  lemma ZeroErrnoTags()
    ensures GetErrno(Some("(errno 0)")) == 0
    ensures GetSqlState(Some("(errno 0)")) == ""
  {
    var m := "(errno 0)";
    assert m == ErrnoMarker + "0" + ")";
    assert TagSpan(m, ErrnoMarker, 0, 8);
    TagTextFound(m, ErrnoMarker, 0, 8);
    assert m[7..8] == "0";
    assert |m| < |SqlStateMarker|;
    TagTextMissing(m, SqlStateMarker);
  }
}

=== FILE: integers.dfy ===
/** Decimal text of integers: `toString` of Java's integer types, and
    `Integer.parseInt` in radix 10. */
module IntegerText {
  import opened Results
  import opened Digits
  import opened Primitives

  /** `toString` of `Integer`, `Long`, `Short`, `Byte` and `BigInteger`: a '-'
      for negative values, then the canonical digits of the magnitude. */
  function IntText(n: int): (r: string)
    ensures |r| >= (if n < 0 then 2 else 1) && (r[0] == '-' <==> n < 0)
    ensures AllDigits(if n < 0 then r[1..] else r)
    ensures n != 0 ==> r[if n < 0 then 1 else 0] != '0'
    ensures n == 0 ==> r == "0"
  {
    if n < 0 then "-" + NatText(-n) else NatText(n)
  }

  /** Optional '+' or '-', then one or more decimal digits, of any magnitude.
      A lone sign and the empty string are refused. */
  function ParseInteger(s: string): (r: Option<int>)
    ensures r.Some? ==> |s| >= 1
    ensures r.Some? && r.value < 0 ==> s[0] == '-'
    ensures r.Some? && s[0] == '-' ==> r.value <= 0
  {
    if |s| == 0 then None
    else if s[0] == '-' || s[0] == '+' then
      if |s| == 1 || !AllDigits(s[1..]) then None
      else
        var v: int := DigitsValue(s[1..]);
        Some(if s[0] == '-' then -v else v)
    else if AllDigits(s) then Some(DigitsValue(s))
    else None
  }

  /** `Integer.parseInt(s)`: `ParseInteger` restricted to the 32-bit range;
      None stands for the `NumberFormatException` Java throws. */
  function ParseInt(s: string): (r: Option<int32>)
    ensures r.Some? <==> ParseInteger(s).Some? && MinInt <= ParseInteger(s).value <= MaxInt
    ensures r.Some? ==> r.value as int == ParseInteger(s).value
  {
    match ParseInteger(s)
    case Some(v) => if MinInt <= v <= MaxInt then Some(v as int32) else None
    case None => None
  }

  /** The text `toString` prints is read back by the parser: the payload of
      every integer kind decodes to the value it came from. */
  lemma IntTextRoundTrip(n: int)
    ensures ParseInteger(IntText(n)) == Some(n)
  {
    if n < 0 {
      NegativeTextRoundTrip(n);
    } else {
      NatTextRoundTrip(n);
    }
  }

  lemma NegativeTextRoundTrip(n: int)
    requires n < 0
    ensures ParseInteger(IntText(n)) == Some(n)
  {
    IntTextNegative(n);
    assert DigitsValue(IntText(n)[1..]) == -n by {
      NatTextValue(-n);
    }
    ParseMinus(IntText(n));
  }

  /** A negative number's text is a '-' followed by its magnitude's text. */
  lemma IntTextNegative(n: int)
    requires n < 0
    ensures |IntText(n)| > 1 && IntText(n)[0] == '-' && IntText(n)[1..] == NatText(-n)
  {
    var t := NatText(-n);
    assert IntText(n) == "-" + t;
    assert ("-" + t)[1..] == t;
  }

  lemma NatTextRoundTrip(n: nat)
    ensures ParseInteger(IntText(n)) == Some(n)
  {
    assert IntText(n) == NatText(n);
    NatTextValue(n);
    ParseUnsigned(NatText(n));
  }

  /** A '-' followed by digits reads as the negated digit value. */
  lemma ParseMinus(s: string)
    requires |s| > 1 && s[0] == '-' && AllDigits(s[1..])
    ensures ParseInteger(s) == Some(-(DigitsValue(s[1..]) as int))
  {
  }

  /** Digits without a sign read as their value. */
  lemma ParseUnsigned(t: string)
    requires |t| >= 1 && AllDigits(t)
    ensures ParseInteger(t) == Some(DigitsValue(t))
  {
    assert IsDigit(t[0]);
  }

  /** `Integer.parseInt(Integer.toString(n)) == n` for every 32-bit `n`. */
  lemma ParseIntOfIntText(n: int32)
    ensures ParseInt(IntText(n as int)) == Some(n)
  {
    IntTextRoundTrip(n as int);
  }

  /** Where the parser is total: it accepts exactly an optional sign followed
      by a non-empty run of ASCII digits. */
  lemma ParseIntegerAccepts(s: string)
    ensures ParseInteger(s).Some? <==>
      (|s| >= 1 && AllDigits(s)) ||
      (|s| >= 2 && (s[0] == '-' || s[0] == '+') && AllDigits(s[1..]))
  {
  }

  /** Text the parser accepts is ASCII. */
  lemma ParseIntegerAscii(s: string)
    requires ParseInteger(s).Some?
    ensures forall i :: 0 <= i < |s| ==> s[i] as int < 0x80
  {
    if s[0] == '-' || s[0] == '+' {
      forall i | 1 <= i < |s|
        ensures IsDigit(s[i])
      {
        assert s[i] == s[1..][i - 1];
      }
    }
  }
}

=== FILE: primitives.dfy ===
/** Java's fixed-width primitive types, as bounded integers. */
module Primitives {

  const MinInt: int := -0x8000_0000
  const MaxInt: int := 0x7FFF_FFFF

  /** A Java `byte` as it travels on the wire: one octet. */
  newtype byte = x: int | 0 <= x < 0x100

  /** `java.lang.Byte`. */
  newtype int8 = x: int | -0x80 <= x < 0x80

  /** `java.lang.Short`. */
  newtype int16 = x: int | -0x8000 <= x < 0x8000

  /** `java.lang.Integer`, and the `int` that `getErrno` returns. */
  newtype int32 = x: int | MinInt <= x <= MaxInt

  /** `java.lang.Long`. */
  newtype int64 = x: int | -0x8000_0000_0000_0000 <= x < 0x8000_0000_0000_0000

  /** Guava's `UnsignedLong`: the unsigned reading of 64 bits. */
  newtype uint64 = x: int | 0 <= x < 0x1_0000_0000_0000_0000
}

=== FILE: results.dfy ===
/** Failure-carrying datatypes: Java's `null`, thrown exceptions and `-1`
    "not found" sentinels are modelled with these instead of preconditions. */
module Results {

  /** A value that may be absent (a nullable reference, or `indexOf` returning -1). */
  datatype Option<+T> = None | Some(value: T) {

    /** The carried value, or `default` when absent. */
    function GetOr(default: T): T {
      match this
      case Some(v) => v
      case None => default
    }
  }

  /** Either a computed value or the exception the computation throws. */
  datatype Result<+T, +E> = Success(value: T) | Failure(error: E)

  /** The result of a `void` operation that either returns normally or throws. */
  datatype Outcome<+E> = Pass | Fail(error: E)
}

=== FILE: text.dfy ===
/** First-occurrence search in strings, as `String.indexOf` does it. */
module Text {
  import opened Results

  /** `pat` occurs in `s` starting at index `i`. */
  predicate OccursAt(s: string, pat: string, i: int) {
    0 <= i && i + |pat| <= |s| && s[i..i + |pat|] == pat
  }

  /** `p` is the first index at which `pat` occurs in `s`. */
  predicate IsFirstOccurrence(s: string, pat: string, p: int) {
    OccursAt(s, pat, p) && forall j :: 0 <= j < p ==> !OccursAt(s, pat, j)
  }

  /** `q` is the first index at or after `from` where `s` holds `c`. */
  predicate IsFirstCharFrom(s: string, c: char, from: int, q: int) {
    0 <= from <= q < |s| && s[q] == c && forall j :: from <= j < q ==> s[j] != c
  }

  /** `s.indexOf(pat, from)` for a non-empty `pat` (the only kind searched
      for here): the first occurrence of `pat` at or after `from`, or None
      where Java answers -1. For an empty `pat` and `from > |s|` Java answers
      `|s|`, which this does not model. */
  function IndexOfFrom(s: string, pat: string, from: nat): (r: Option<nat>)
    ensures r.Some? ==> from <= r.value && OccursAt(s, pat, r.value)
    ensures r.Some? ==> forall j :: from <= j < r.value ==> !OccursAt(s, pat, j)
    ensures r.None? ==> forall j :: from <= j ==> !OccursAt(s, pat, j)
    decreases |s| - from
  {
    if from + |pat| > |s| then None
    else if s[from..from + |pat|] == pat then Some(from)
    else IndexOfFrom(s, pat, from + 1)
  }

  /** `s.indexOf(pat)`. */
  function IndexOf(s: string, pat: string): (r: Option<nat>)
    ensures r.Some? <==> exists p :: IsFirstOccurrence(s, pat, p)
    ensures r.Some? ==> IsFirstOccurrence(s, pat, r.value)
  {
    var r := IndexOfFrom(s, pat, 0);
    assert r.None? ==> forall p :: !IsFirstOccurrence(s, pat, p);
    assert r.Some? ==> IsFirstOccurrence(s, pat, r.value);
    r
  }

  /** `s.indexOf(c, from)`: the first index at or after `from` that holds `c`,
      or None where Java answers -1 (which includes every `from >= |s|`). */
  function IndexOfChar(s: string, c: char, from: nat): (r: Option<nat>)
    ensures r.Some? ==> IsFirstCharFrom(s, c, from, r.value)
    ensures r.None? <==> forall j :: from <= j < |s| ==> s[j] != c
    decreases |s| - from
  {
    if from >= |s| then None
    else if s[from] == c then Some(from)
    else IndexOfChar(s, c, from + 1)
  }

  /** There is only one first occurrence. */
  lemma FirstOccurrenceUnique(s: string, pat: string, p: int, p': int)
    requires IsFirstOccurrence(s, pat, p) && IsFirstOccurrence(s, pat, p')
    ensures p == p'
  {
  }

  /** There is only one first match of a character after a given index. */
  lemma FirstCharUnique(s: string, c: char, from: int, q: int, q': int)
    requires IsFirstCharFrom(s, c, from, q) && IsFirstCharFrom(s, c, from, q')
    ensures q == q'
  {
  }

  /** A pattern whose first character `s` lacks never occurs in `s`. */
  lemma AbsentWithoutFirstChar(s: string, pat: string)
    requires |pat| > 0 && forall j :: 0 <= j < |s| ==> s[j] != pat[0]
    ensures forall p :: !OccursAt(s, pat, p)
  {
    forall p
      ensures !OccursAt(s, pat, p)
    {
      if 0 <= p && p + |pat| <= |s| {
        assert s[p..p + |pat|][0] == s[p];
      }
    }
  }

  /** `indexOf(c, from)` finds the first match when there is one. */
  lemma IndexOfCharFinds(s: string, c: char, from: nat, q: nat)
    requires IsFirstCharFrom(s, c, from, q)
    ensures IndexOfChar(s, c, from) == Some(q)
  {
    var r := IndexOfChar(s, c, from);
    if r.Some? {
      FirstCharUnique(s, c, from, q, r.value);
    }
  }

  /** The middle part of a three-way concatenation is the slice between the
      other two. */
  /** A character absent from a slice is absent from each of its positions. */
  lemma NoCharInSlice(s: string, c: char, lo: nat, hi: nat)
    requires lo <= hi <= |s| && c !in s[lo..hi]
    ensures forall k :: lo <= k < hi ==> s[k] != c
  {
    forall k | lo <= k < hi
      ensures s[k] != c
    {
      assert s[k] == s[lo..hi][k - lo];
    }
  }

  lemma MiddleSlice(a: string, b: string, c: string)
    ensures (a + b + c)[|a|..|a| + |b|] == b
  {
    var m := a + b + c;
    forall k | 0 <= k < |b|
      ensures m[|a|..|a| + |b|][k] == b[k]
    {
      assert m[|a| + k] == b[k];
    }
  }
}

=== FILE: utf8.dfy ===
/** `ByteString.copyFromUtf8`: the UTF-8 encoding of a string. */
module Utf8 {
  import opened Primitives

  /** The one to four octets UTF-8 uses for one Unicode scalar value. */
  function EncodeChar(c: char): (r: seq<byte>)
    ensures 1 <= |r| <= 4
    ensures (c as int < 0x80) <==> |r| == 1
    ensures |r| == 1 ==> r[0] as int == c as int
    ensures |r| > 1 ==> r[0] >= 0xC0 && forall i :: 1 <= i < |r| ==> 0x80 <= r[i] < 0xC0
  {
    var n := c as int;
    if n < 0x80 then
      [n as byte]
    else if n < 0x800 then
      [(0xC0 + n / 0x40) as byte, (0x80 + n % 0x40) as byte]
    else if n < 0x1_0000 then
      [(0xE0 + n / 0x1000) as byte, (0x80 + n / 0x40 % 0x40) as byte, (0x80 + n % 0x40) as byte]
    else
      [(0xF0 + n / 0x4_0000) as byte, (0x80 + n / 0x1000 % 0x40) as byte,
       (0x80 + n / 0x40 % 0x40) as byte, (0x80 + n % 0x40) as byte]
  }

  predicate IsAscii(s: string) {
    forall i :: 0 <= i < |s| ==> s[i] as int < 0x80
  }

  /** The UTF-8 encoding of `s`, character by character. */
  function Encode(s: string): (r: seq<byte>)
    ensures |s| <= |r| <= 4 * |s|
    ensures |r| == |s| <==> IsAscii(s)
  {
    if |s| == 0 then [] else EncodeChar(s[0]) + Encode(s[1..])
  }

  /** Reads octets below 0x80 back as the characters they encode. */
  function DecodeAscii(b: seq<byte>): (s: string)
    requires forall i :: 0 <= i < |b| ==> b[i] < 0x80
    ensures |s| == |b|
    ensures forall i :: 0 <= i < |b| ==> s[i] as int == b[i] as int
  {
    seq(|b|, i requires 0 <= i < |b| => (b[i] as int) as char)
  }

  /** For ASCII text UTF-8 is the identity on code points: one octet per
      character, equal to it. */
  lemma {:induction false} EncodeAscii(s: string)
    requires IsAscii(s)
    ensures |Encode(s)| == |s|
    ensures forall i :: 0 <= i < |s| ==> Encode(s)[i] as int == s[i] as int
  {
    if |s| > 0 {
      EncodeAscii(s[1..]);
    }
  }

  /** ASCII text survives encoding and reading back. */
  lemma AsciiRoundTrip(s: string)
    requires IsAscii(s)
    ensures forall i :: 0 <= i < |Encode(s)| ==> Encode(s)[i] < 0x80
    ensures DecodeAscii(Encode(s)) == s
  {
    EncodeAscii(s);
  }
}
